=== FILE: README.md ===
# NPO radio stream grabber: the stream URL cache

This project models, in Dafny, the core of the Go server in `internal/server/server.go`.
The server keeps a cache of stream URLs keyed by request path, such as `/nporadio1.m3u8`.
A refresh pass walks the static route table. For each route it runs three dependent steps:
read a token URL from the live page, fetch a player token, then post a stream-link request.
It stores the resulting URL with the current time only when all three succeed.
The request handler redirects (302) to a cached URL while its age is below the refresh
interval, and answers 404 otherwise.
At startup, a zero port, timeout or refresh interval falls back to 8080, 4s or 2h.

Files:

- `types.dfy`, module `Types`: the records of `internal/server/types.go` (`RouteConfig`,
  `StreamLinkRequest`, `CachedStreamUrl`) and an `Option` type.
- `server.dfy`, module `Server` (`internal/server/server.go`):
  - durations, including Go's saturating `time.Since`;
  - the defaults and the route table;
  - the per-route resolution chain;
  - an order-free specification of a refresh pass (`Writes`);
  - the lookup decision (`Lookup`);
  - the class `StreamServer`. It holds the package-level variables `port`, `timeout`,
    `refreshInterval` and `cachedUrls`, and the route table as a constant field.

Modelling choices:

- Time is an integer count of nanoseconds on the monotonic clock.
- A `time.Duration` is the subset type `Duration` of signed 64-bit integers.
- `time.Since` saturates at the 64-bit bounds, as Go's `Time.Sub` does. `Lookup`'s contract
  shows that, for any interval above the minimum duration, this saturation never changes the
  freshness verdict: an entry is fresh iff `now - timestamp < interval`.
- The outside world seen by one route's attempt is an `Environment`. It holds three partial
  functions, one per network step, and the clock reading taken when the attempt stores its
  result.
- A pass receives one environment per attempt. So two routes that share a live page (for
  example `/nporadio1.m3u8` and `/nporadio1.mpd`) can still get different answers.
- Go ranges over the route map in an unspecified order, so `UpdateStreamUrls` takes the
  order as a parameter. It requires only that the order lists every route exactly once.
  `WritesIgnoreOrder` proves that the order does not matter.

## Model

| member | source | states |
|---|---|---|
| `Server.Since` | internal/server/server.go:141 | `time.Since` is the exact difference `now - t` whenever it fits in a 64-bit duration, and the bound on the same side otherwise, as Go's saturating `Time.Sub` gives |
| `Server.SinceComparesLikeDifference` | internal/server/server.go:141 | comparing the saturated `time.Since` with any bound above the minimum duration gives the same answer as comparing the exact difference `now - t` |
| `Server.WithDefault` | internal/server/server.go:198-206 | a setting parsed as zero takes the fallback; any non-zero setting, negative ones included, is kept unchanged |
| `Server.DefaultedSettingIsStable` | internal/server/server.go:19-23 | with a non-zero fallback (8080, 4s, 2h) the defaulted setting is never zero, and defaulting again changes nothing |
| `Server.RouteTablePairsProfileWithDrm` | internal/server/server.go:25-36 | every route of the table pairs hls with fairplay and dash with widevine, and all routes post to the same stream-link builder |
| `Server.NewStreamLinkRequest` | internal/server/server.go:50-54 | the stream-link request carries the route's profile name and DRM type, with the route's live page URL as referrer |
| `Server.FetchStreamUrl` | internal/server/server.go:44-91 | the stream step's outcome is the builder endpoint's answer to a POST of the route's profile name, DRM type and live page URL (as referrer), authorised by the player token; HTTP and decoding failures are the `None` of that answer |
| `Server.Resolve` | internal/server/server.go:152-168 | a route resolves iff the token URL, then the player token obtained from that token URL, then the stream URL obtained with that token all succeed; the result is the stream-link builder's answer to the route's request authorised by that token |
| `Server.AttemptWrite` | internal/server/server.go:164-175 | an attempt stores an entry iff the route resolves, and the entry pairs the resolved URL with the clock reading of that attempt |
| `Server.Writes` | internal/server/server.go:151-176 | the entries a sequence of attempts stores mention only attempted paths |
| `Server.WritesSnoc` | internal/server/server.go:151-176 | one more attempt at the end of a pass adds its entry, if any, on top of the earlier entries and otherwise changes nothing |
| `Server.WritesAt` | internal/server/server.go:151-176 | when each path is attempted once, a path's stored entry is exactly what its own attempt produced; another route's failure or success has no effect on it, and a failed attempt stores nothing |
| `Server.WritesIgnoreOrder` | internal/server/server.go:151 | two passes over any two iteration orders of the same route table store the same entries when each path meets the same environment in both |
| `Server.Lookup` | internal/server/server.go:134-147 | the answer redirects only to the cached URL of the requested path; for any interval above the minimum duration it redirects iff an entry exists and `now - timestamp < interval`; with the minimum interval it never redirects |
| `Server.AgeEqualToIntervalIsExpired` | internal/server/server.go:141 | an entry whose age equals the refresh interval exactly is answered 404 |
| `Server.NonPositiveIntervalNeverRedirects` | internal/server/server.go:141 | with a non-positive refresh interval, every entry stored at or before the request time is answered 404 |
| `Server.UnknownPathNotFound` | internal/server/server.go:141-142 | a path outside the route table has no entry in a cache that holds only routes, so it is answered 404 |
| `Server.LookupAfterPass` | internal/server/server.go:137-146 | after a pass, a route whose attempt succeeded redirects to its new URL while that entry is younger than the interval and answers 404 afterwards; a route whose attempt failed answers exactly what the cache before the pass answered, including 404 for a stale entry that is still stored |
| `Server.FailingRouteIsIsolated` | internal/server/server.go:151-168 | with two routes, one of whose token-URL step returns an error (its page data is not valid JSON), one pass over an empty cache leaves the healthy route redirecting and the failing one answering 404 |
| `Server.ExpiryAndRenewal` | internal/server/server.go:170-175 | with a 100 ms interval, a URL stored at 0 ms is served at 50 ms; at 150 ms it is still stored but answered 404; after a second successful pass at 200 ms the new URL is served |
| `Server.StreamServer.constructor` | internal/server/server.go:38-41 | before startup the cache is empty, the settings are zero and the route table is the static one |
| `Server.StreamServer.LoadSettings` | internal/server/server.go:194-206 | port, timeout and refresh interval are the parsed values with zero replaced by the default; all three end non-zero and the cache is untouched |
| `Server.StreamServer.HandleRequest` | internal/server/server.go:134-147 | the handler changes nothing (no modifies clause) and answers `Lookup` over the current cache and refresh interval, with status 404 exactly when it is not a redirect; a path outside the route table is answered 404 |
| `Server.StreamServer.UpdateStreamUrls` | internal/server/server.go:149-177 | for any iteration order listing each route once, the new cache is the old cache overridden by the entries of the routes whose three steps all succeeded; no entry is removed, only route paths are ever cached, and nothing but the cache changes |

## Left out

- The HTTP and JSON work in `fetchStreamUrl` and `fetchPlayerToken` (internal/server/server.go:44-117) is I/O. This covers building the request (`http.NewRequestWithContext` rejects a malformed URL, lines 94-97) and the client with its timeout, headers, status checks and decoding. Each step is reduced to its success or failure, as a function of the step's inputs inside one attempt's `Environment`. The error path of `json.Marshal` on a struct of strings (lines 55-57) is left out: it cannot fail.
- `fetchTokenURL` (internal/server/server.go:119-132) drives a browser through go-rod. Only its outcome is modelled (`Environment.fetchTokenURL`). It returns an error in one case only: the `__NEXT_DATA__` text does not decode into `NextData` (lines 125-129). Either it is not valid JSON, or a value along `props.pageProps.player.tokenUrl` has the wrong type, such as `{"props":1}`. A `None` from `Environment.fetchTokenURL` stands for that decoding error alone. Its other failures do not return. A page that fails to load makes a `Must*` call panic, and a panic in the refresh goroutine would end the process. `MustElement("#__NEXT_DATA__")` (line 124) keeps waiting for the element, and nothing bounds that wait: `ctx` is unused and the browser has no deadline. So a page that loads without the element blocks the pass at that route. The routes after it in the iteration order are then never attempted, and every later pass blocks the same way. The failure-isolation results (`WritesAt`, `LookupAfterPass`, `FailingRouteIsIsolated`) cover returned errors only. They cover neither the panic nor the block.
- `startUpdateTicker` and the goroutines started by `StartServer` (internal/server/server.go:179-191, 215-219) are concurrency. The model gives one refresh pass as `UpdateStreamUrls`. The server runs one such pass at startup and one per tick of the refresh interval until cancelled. The startup pass and the ticker's passes run in separate goroutines (lines 218-219), so a startup pass that lasts longer than the interval overlaps the first tick's pass, and their writes interleave. The model puts passes only one after another, and a cache that only such an interleaving produces is not modelled. `time.NewTicker` panics on a non-positive interval, which the defaulting lets through for negative values; this is not modelled.
- The `sync.Mutex` (internal/server/server.go:42, 137-139, 170-175) is concurrency. The sequential model treats each map read or write as one atomic step.
- Reading `PORT`, `TIMEOUT` and `REFRESH_INTERVAL` with `strconv.Atoi` and `time.ParseDuration` (internal/server/server.go:194-196) is library parsing. The parsed values are inputs of `LoadSettings`. An unset variable or a syntax error yields zero, which the defaulting replaces. An out-of-range `PORT` makes `strconv.Atoi` return the 64-bit bound on that side, which is non-zero and so is kept as given.
- The browser connection and its fatal error, `http.ListenAndServe`, and logging (internal/server/server.go:207-213, 221-223, 135, 154, 160, 166) are I/O.
- The HTTP response itself is left out. `Response` names the status (`StatusCode`) and the redirect target; the plain-text 404 body is not modelled.
- `Server.StreamServer.LoadSettings`: the port is an unbounded integer rather than Go's 64-bit `int`; it is only compared with zero.
- `time.Time` is modelled as a single monotonic nanosecond count; wall-clock readings without a monotonic part are not modelled.
- The Node/Puppeteer server `index.ts` is not part of this model. It is a separate page-sniffing program made entirely of browser events and timers.
- The JSON response shapes `StreamLinkResponse`, `NextData` and `PlayerTokenResponse` in internal/server/types.go are left out. They only matter to decoding, which is left out above.

=== FILE: server.dfy ===
/** The stream server of internal/server/server.go: a time-limited cache of stream URLs,
    keyed by route path, filled by refresh passes over a static route table and read
    by the request handler. */
module Server {
  import opened Types

  // ---------------------------------------------------------------------------
  // Time. Clock readings are integers counting nanoseconds on the monotonic clock;
  // a Go time.Duration is a signed 64-bit count of nanoseconds.
  // ---------------------------------------------------------------------------

  const Second: int := 1_000_000_000
  const Hour: int := 3600 * Second

  const MinDuration: int := -0x8000_0000_0000_0000
  const MaxDuration: int := 0x7FFF_FFFF_FFFF_FFFF

  type Duration = d: int | MinDuration <= d <= MaxDuration

  /** time.Since(t) at clock reading `now`: the difference now - t, saturated at the
      bounds of a Duration the way Go's Time.Sub does. */
  function Since(now: int, t: int): (d: Duration)
    ensures MinDuration <= now - t <= MaxDuration ==> d == now - t
    ensures now - t > MaxDuration ==> d == MaxDuration
    ensures now - t < MinDuration ==> d == MinDuration
  {
    if now - t > MaxDuration then MaxDuration
    else if now - t < MinDuration then MinDuration
    else now - t
  }

  /** Saturation never changes how the elapsed time compares with a bound above MinDuration. */
  lemma SinceComparesLikeDifference(now: int, t: int, bound: Duration)
    requires bound > MinDuration
    ensures Since(now, t) < bound <==> now - t < bound
  {
  }

  // ---------------------------------------------------------------------------
  // Configuration.
  // ---------------------------------------------------------------------------

  const DefaultTimeout: Duration := 4 * Second
  const DefaultPort: int := 8080
  const DefaultRefreshInterval: Duration := 2 * Hour

  /** A parsed setting, with the zero value standing for "not given". */
  function WithDefault(parsed: int, fallback: int): (v: int)
    ensures parsed != 0 ==> v == parsed
    ensures parsed == 0 ==> v == fallback
  {
    if parsed == 0 then fallback else parsed
  }

  /** With a non-zero fallback the defaulted setting is never zero, and defaulting twice
      changes nothing. */
  lemma DefaultedSettingIsStable(parsed: int, fallback: int)
    requires fallback != 0
    ensures WithDefault(parsed, fallback) != 0
    ensures WithDefault(WithDefault(parsed, fallback), fallback) == WithDefault(parsed, fallback)
  {
  }

  /** The static route table: request path to route description. */
  const RouteConfigs: map<string, RouteConfig> := map[
    "/nporadio1.m3u8" := RouteConfig("fairplay", "hls", "https://prod.npoplayer.nl/stream-link", "https://www.nporadio1.nl/live"),
    "/nporadio1.mpd" := RouteConfig("widevine", "dash", "https://prod.npoplayer.nl/stream-link", "https://www.nporadio1.nl/live"),
    "/nporadio2.m3u8" := RouteConfig("fairplay", "hls", "https://prod.npoplayer.nl/stream-link", "https://www.nporadio2.nl/live"),
    "/nporadio2.mpd" := RouteConfig("widevine", "dash", "https://prod.npoplayer.nl/stream-link", "https://www.nporadio2.nl/live"),
    "/npo3fm.m3u8" := RouteConfig("fairplay", "hls", "https://prod.npoplayer.nl/stream-link", "https://www.npo3fm.nl/live"),
    "/npo3fm.mpd" := RouteConfig("widevine", "dash", "https://prod.npoplayer.nl/stream-link", "https://www.npo3fm.nl/live"),
    "/npoklassiek.m3u8" := RouteConfig("fairplay", "hls", "https://prod.npoplayer.nl/stream-link", "https://www.nporadio4.nl/live"),
    "/npoklassiek.mpd" := RouteConfig("widevine", "dash", "https://prod.npoplayer.nl/stream-link", "https://www.nporadio4.nl/live"),
    "/funx.m3u8" := RouteConfig("fairplay", "hls", "https://prod.npoplayer.nl/stream-link", "https://www.funx.nl/live"),
    "/funx.mpd" := RouteConfig("widevine", "dash", "https://prod.npoplayer.nl/stream-link", "https://www.funx.nl/live")
  ]

  /** Every route in the table pairs HLS with FairPlay or DASH with Widevine, and all of them
      use the same stream-link builder. */
  lemma RouteTablePairsProfileWithDrm(path: string)
    requires path in RouteConfigs
    ensures RouteConfigs[path].profileName == "hls" <==> RouteConfigs[path].drmType == "fairplay"
    ensures RouteConfigs[path].profileName == "dash" <==> RouteConfigs[path].drmType == "widevine"
    ensures RouteConfigs[path].streamBuilderURL == "https://prod.npoplayer.nl/stream-link"
  {
  }

  // ---------------------------------------------------------------------------
  // Resolution of one route: token URL, then player token, then stream URL.
  // ---------------------------------------------------------------------------

  /** The body of the stream-link request for a route: its profile and DRM type, with the
      route's live page as referrer. */
  function NewStreamLinkRequest(config: RouteConfig): (req: StreamLinkRequest)
    ensures req.profileName == config.profileName
    ensures req.drmType == config.drmType
    ensures req.referrerUrl == config.url
  {
    StreamLinkRequest(config.profileName, config.drmType, config.url)
  }

  /** What the outside world answers during one route's attempt, and the clock reading taken
      when that attempt stores its result. `None` is the error a step returns.
        fetchTokenURL:    live page URL -> token URL, read from the page's embedded
                          `__NEXT_DATA__`; `None` only when that text does not decode into
                          NextData: it is not valid JSON, or a value along
                          props.pageProps.player.tokenUrl has the wrong type (a page that
                          fails to load panics, and a page without the element blocks)
        fetchPlayerToken: token URL -> player token (GET); `None` for a token URL the request
                          constructor rejects, a network error, a status other than 200 or
                          an undecodable body
        postStreamLink:   builder endpoint, JSON body, Authorization header -> stream URL (POST);
                          `None` for a network error, a status other than 200 or an
                          undecodable body */
  datatype Environment = Environment(
    fetchTokenURL: string -> Option<string>,
    fetchPlayerToken: string -> Option<string>,
    postStreamLink: (string, StreamLinkRequest, string) -> Option<string>,
    now: int)

  /** fetchStreamUrl: posts the route's stream-link request to its builder endpoint,
      authorised by the player token. */
  function FetchStreamUrl(e: Environment, config: RouteConfig, authToken: string): (r: Option<string>)
    ensures r == e.postStreamLink(config.streamBuilderURL,
                                  StreamLinkRequest(config.profileName, config.drmType, config.url),
                                  authToken)
  {
    e.postStreamLink(config.streamBuilderURL, NewStreamLinkRequest(config), authToken)
  }

  /** The three dependent steps for one route; a failure at any step is a failure of the route. */
  function Resolve(e: Environment, config: RouteConfig): (r: Option<string>)
    ensures r.Some? <==>
      && e.fetchTokenURL(config.url).Some?
      && e.fetchPlayerToken(e.fetchTokenURL(config.url).value).Some?
      && FetchStreamUrl(e, config, e.fetchPlayerToken(e.fetchTokenURL(config.url).value).value).Some?
    ensures r.Some? ==>
      r == e.postStreamLink(config.streamBuilderURL, NewStreamLinkRequest(config),
                            e.fetchPlayerToken(e.fetchTokenURL(config.url).value).value)
  {
    match e.fetchTokenURL(config.url)
    case None => None
    case Some(tokenUrl) =>
      match e.fetchPlayerToken(tokenUrl)
      case None => None
      case Some(playerToken) => FetchStreamUrl(e, config, playerToken)
  }

  /** The cache entry one attempt stores, if it succeeds: the stream URL stamped with the
      attempt's clock reading. */
  function AttemptWrite(e: Environment, config: RouteConfig): (w: Option<CachedStreamUrl>)
    ensures w.Some? <==> Resolve(e, config).Some?
    ensures w.Some? ==> w.value.streamURL == Resolve(e, config).value && w.value.timestamp == e.now
  {
    match Resolve(e, config)
    case None => None
    case Some(url) => Some(CachedStreamUrl(url, e.now))
  }

  // ---------------------------------------------------------------------------
  // A refresh pass, as a specification over an iteration order.
  // ---------------------------------------------------------------------------

  /** `order` lists every key of `routes` exactly once: one of the orders in which Go may
      range over the map. */
  ghost predicate IsRangeOrder(routes: map<string, RouteConfig>, order: seq<string>)
  {
    && (forall k :: 0 <= k < |order| ==> order[k] in routes)
    && (forall p :: p in routes ==> p in order)
    && (forall i, j :: 0 <= i < j < |order| ==> order[i] != order[j])
  }

  /** The entries stored by the attempts for `order`, made in that order with environments
      `env`; a later write for the same path replaces an earlier one. */
  function Writes(routes: map<string, RouteConfig>, order: seq<string>, env: seq<Environment>)
    : (w: map<string, CachedStreamUrl>)
    requires |env| == |order|
    requires forall k :: 0 <= k < |order| ==> order[k] in routes
    ensures forall p :: p in w ==> p in order
    decreases |order|
  {
    if order == [] then map[]
    else
      var n := |order| - 1;
      var earlier := Writes(routes, order[..n], env[..n]);
      match AttemptWrite(env[n], routes[order[n]])
      case None => earlier
      case Some(entry) => earlier[order[n] := entry]
  }

  /** With each path attempted once, a path's written entry is exactly what its own attempt
      stored: nothing when that attempt failed, whatever the other attempts did. */
  lemma {:induction false} WritesAt(routes: map<string, RouteConfig>, order: seq<string>,
                                    env: seq<Environment>, k: nat)
    requires |env| == |order|
    requires forall i :: 0 <= i < |order| ==> order[i] in routes
    requires forall i, j :: 0 <= i < j < |order| ==> order[i] != order[j]
    requires k < |order|
    ensures Get(Writes(routes, order, env), order[k]) == AttemptWrite(env[k], routes[order[k]])
  {
    var n := |order| - 1;
    if k < n {
      WritesAt(routes, order[..n], env[..n], k);
      assert order[..n][k] == order[k] && env[..n][k] == env[k];
      assert order[n] != order[k];
    }
  }

  /** One more attempt at the end of a pass adds that attempt's entry, if any, on top of the
      earlier ones. */
  lemma WritesSnoc(routes: map<string, RouteConfig>, order: seq<string>, env: seq<Environment>,
                   i: nat)
    requires |env| == |order|
    requires forall k :: 0 <= k < |order| ==> order[k] in routes
    requires i < |order|
    ensures Writes(routes, order[..i + 1], env[..i + 1])
         == match AttemptWrite(env[i], routes[order[i]])
            case None => Writes(routes, order[..i], env[..i])
            case Some(entry) => Writes(routes, order[..i], env[..i])[order[i] := entry]
  {
    assert order[..i + 1][..i] == order[..i] && env[..i + 1][..i] == env[..i];
  }

  /** Go's map iteration order does not matter: two passes over any two orders of the same
      route table store the same entries, provided each path meets the same environment in
      both. */
  lemma WritesIgnoreOrder(routes: map<string, RouteConfig>,
                          order1: seq<string>, env1: seq<Environment>,
                          order2: seq<string>, env2: seq<Environment>)
    requires IsRangeOrder(routes, order1) && |env1| == |order1|
    requires IsRangeOrder(routes, order2) && |env2| == |order2|
    requires forall i, j :: 0 <= i < |order1| && 0 <= j < |order2| && order1[i] == order2[j] ==> env1[i] == env2[j]
    ensures Writes(routes, order1, env1) == Writes(routes, order2, env2)
  {
    var w1, w2 := Writes(routes, order1, env1), Writes(routes, order2, env2);
    forall p
      ensures Get(w1, p) == Get(w2, p)
    {
      if p in routes {
        var i :| 0 <= i < |order1| && order1[i] == p;
        var j :| 0 <= j < |order2| && order2[j] == p;
        WritesAt(routes, order1, env1, i);
        WritesAt(routes, order2, env2, j);
      }
    }
    SameEntriesSameMap(w1, w2);
  }

  /** Two maps that agree on every key are equal. */
  lemma SameEntriesSameMap<K, V>(m1: map<K, V>, m2: map<K, V>)
    requires forall k :: Get(m1, k) == Get(m2, k)
    ensures m1 == m2
  {
    assert m1.Keys == m2.Keys by {
      forall k | k in m1 ensures k in m2 { assert Get(m1, k).Some?; }
      forall k | k in m2 ensures k in m1 { assert Get(m2, k).Some?; }
    }
    forall k | k in m1 ensures m1[k] == m2[k] { assert Get(m1, k) == Get(m2, k); }
  }

  // ---------------------------------------------------------------------------
  // The request handler's decision.
  // ---------------------------------------------------------------------------

  /** An HTTP answer: 404 (not found or expired), or 302 to `location`. */
  datatype Response = NotFound | Redirect(location: string)
  {
    function StatusCode(): (code: int)
      ensures code == 404 <==> NotFound?
      ensures code == 302 <==> Redirect?
    {
      if NotFound? then 404 else 302
    }
  }

  /** handleRequest's answer for `path` at clock reading `now`. An entry is usable while its
      age is below the refresh interval; at exactly the interval it has expired. */
  function Lookup(cache: map<string, CachedStreamUrl>, path: string, now: int, interval: Duration)
    : (r: Response)
    ensures r.Redirect? ==> path in cache && r.location == cache[path].streamURL
    ensures interval > MinDuration ==>
      (r.Redirect? <==> path in cache && now - cache[path].timestamp < interval)
    ensures interval == MinDuration ==> r == NotFound
  {
    if path !in cache then NotFound
    else if Since(now, cache[path].timestamp) >= interval then NotFound
    else Redirect(cache[path].streamURL)
  }

  /** An entry whose age equals the interval exactly is already expired. */
  lemma AgeEqualToIntervalIsExpired(cache: map<string, CachedStreamUrl>, path: string, now: int,
                                    interval: Duration)
    requires path in cache && now - cache[path].timestamp == interval
    ensures Lookup(cache, path, now, interval) == NotFound
  {
  }

  /** A non-positive refresh interval (one the defaulting lets through) makes every entry
      stored at or before `now` unusable. */
  lemma NonPositiveIntervalNeverRedirects(cache: map<string, CachedStreamUrl>, path: string,
                                          now: int, interval: Duration)
    requires interval <= 0
    requires path in cache ==> cache[path].timestamp <= now
    ensures Lookup(cache, path, now, interval) == NotFound
  {
  }

  /** A path outside the route table has no entry in a cache that only holds routes, so it is
      always answered 404. */
  lemma UnknownPathNotFound(cache: map<string, CachedStreamUrl>, routes: map<string, RouteConfig>,
                            path: string, now: int, interval: Duration)
    requires cache.Keys <= routes.Keys && path !in routes
    ensures Lookup(cache, path, now, interval) == NotFound
  {
  }

  /** What a request for a route answers after a pass: if the route's attempt succeeded, the new
      URL while it is younger than the interval and 404 afterwards; if it failed, exactly what
      the cache before the pass would have answered (a stale entry stays stored and stays
      unusable). */
  lemma LookupAfterPass(routes: map<string, RouteConfig>, cache: map<string, CachedStreamUrl>,
                        order: seq<string>, env: seq<Environment>, k: nat,
                        now: int, interval: Duration)
    requires IsRangeOrder(routes, order) && |env| == |order| && k < |order|
    requires interval > MinDuration
    ensures
      var after := cache + Writes(routes, order, env);
      match AttemptWrite(env[k], routes[order[k]])
      case Some(entry) =>
        Lookup(after, order[k], now, interval)
          == (if now - entry.timestamp < interval then Redirect(entry.streamURL) else NotFound)
      case None =>
        Lookup(after, order[k], now, interval) == Lookup(cache, order[k], now, interval)
  {
    WritesAt(routes, order, env, k);
  }

  /** A route whose step 1 returns an error (its page data is not valid JSON) does not keep the
      pass from storing the other route: after one pass over an empty cache the healthy route
      redirects and the failing one answers 404. */
  lemma FailingRouteIsIsolated(healthy: RouteConfig, failing: RouteConfig, start: int)
    requires healthy.url != failing.url
    ensures
      var routes := map["/a" := healthy, "/b" := failing];
      var e := Environment(
        page => if page == healthy.url then Some("token-url") else None,
        tokenUrl => Some("player-token"),
        (endpoint, body, auth) => Some("https://x/1"),
        start);
      var after := map[] + Writes(routes, ["/a", "/b"], [e, e]);
      && Lookup(after, "/a", start + 50_000_000, 100_000_000) == Redirect("https://x/1")
      && Lookup(after, "/b", start + 50_000_000, 100_000_000) == NotFound
  {
  }

  /** One route refreshed every 100 ms: the URL stored at time 0 is served at 50 ms, has expired
      at 150 ms although it is still stored, and a second successful pass at 200 ms serves the
      new URL. */
  lemma ExpiryAndRenewal(route: RouteConfig, first: Environment, second: Environment)
    requires Resolve(first, route) == Some("https://x/1") && first.now == 0
    requires Resolve(second, route) == Some("https://x/2") && second.now == 200_000_000
    ensures
      var routes := map["/a" := route];
      var afterFirst := map[] + Writes(routes, ["/a"], [first]);
      var afterSecond := afterFirst + Writes(routes, ["/a"], [second]);
      && Lookup(afterFirst, "/a", 50_000_000, 100_000_000) == Redirect("https://x/1")
      && Lookup(afterFirst, "/a", 150_000_000, 100_000_000) == NotFound
      && "/a" in afterFirst
      && Lookup(afterSecond, "/a", 200_000_000, 100_000_000) == Redirect("https://x/2")
  {
  }

  /** Storing one more entry over an overridden cache is the same as adding it to the
      overriding entries. */
  lemma OverrideThenUpdate(cache: map<string, CachedStreamUrl>, w: map<string, CachedStreamUrl>,
                           path: string, entry: CachedStreamUrl)
    ensures cache + w[path := entry] == (cache + w)[path := entry]
  {
  }

  // ---------------------------------------------------------------------------
  // The server state: the package-level variables of server.go.
  // ---------------------------------------------------------------------------

  class StreamServer {
    var port: int
    var timeout: Duration
    var refreshInterval: Duration
    var cachedUrls: map<string, CachedStreamUrl>
    const routeConfigs: map<string, RouteConfig>

    /** Only paths of the route table are ever cached. */
    ghost predicate Valid()
      reads this
    {
      cachedUrls.Keys <= routeConfigs.Keys
    }

    /** The variables before StartServer: Go's zero values and an empty cache. */
    constructor ()
      ensures Valid()
      ensures routeConfigs == RouteConfigs
      ensures cachedUrls == map[] && port == 0 && timeout == 0 && refreshInterval == 0
    {
      routeConfigs := RouteConfigs;
      port, timeout, refreshInterval := 0, 0, 0;
      cachedUrls := map[];
    }

    /** StartServer's settings: the parsed values, each falling back to its default when zero
        (also what an unset variable or a syntax error yields). */
    method LoadSettings(parsedPort: int, parsedTimeout: Duration, parsedRefreshInterval: Duration)
      requires Valid()
      modifies this`port, this`timeout, this`refreshInterval
      ensures Valid()
      ensures port == WithDefault(parsedPort, DefaultPort) && port != 0
      ensures timeout == WithDefault(parsedTimeout, DefaultTimeout) && timeout != 0
      ensures refreshInterval == WithDefault(parsedRefreshInterval, DefaultRefreshInterval)
      ensures refreshInterval != 0
    {
      port := parsedPort;
      timeout := parsedTimeout;
      refreshInterval := parsedRefreshInterval;
      if port == 0 {
        port := DefaultPort;
      }
      if timeout == 0 {
        timeout := DefaultTimeout;
      }
      if refreshInterval == 0 {
        refreshInterval := DefaultRefreshInterval;
      }
    }

    /** handleRequest: reads the cache, changes nothing, and answers by the freshness rule. */
    method HandleRequest(path: string, now: int) returns (r: Response)
      requires Valid()
      ensures r == Lookup(cachedUrls, path, now, refreshInterval)
      ensures path !in routeConfigs ==> r == NotFound
      ensures r.StatusCode() == 404 <==> r == NotFound
    {
      var cached := Get(cachedUrls, path);
      if cached.None? || Since(now, cached.value.timestamp) >= refreshInterval {
        r := NotFound;
        return;
      }
      r := Redirect(cached.value.streamURL);
    }

    /** updateStreamUrls: one refresh pass over the route table in the iteration order
        `order`, the i-th attempt meeting environment env[i]. The three requires on `order`
        spell out IsRangeOrder: Go ranges over every route exactly once. A route whose three steps all
        succeed overwrites its entry; a failing route is skipped and keeps its entry or its
        absence; no entry is removed. */
    method UpdateStreamUrls(order: seq<string>, env: seq<Environment>)
      requires Valid()
      requires forall k :: 0 <= k < |order| ==> order[k] in routeConfigs
      requires forall p :: p in routeConfigs ==> p in order
      requires forall i, j :: 0 <= i < j < |order| ==> order[i] != order[j]
      requires |env| == |order|
      modifies this`cachedUrls
      ensures Valid()
      ensures cachedUrls == old(cachedUrls) + Writes(routeConfigs, order, env)
      ensures old(cachedUrls).Keys <= cachedUrls.Keys
    {
      for i := 0 to |order|
        invariant Valid()
        invariant cachedUrls == old(cachedUrls) + Writes(routeConfigs, order[..i], env[..i])
      {
        var path := order[i];
        var config := routeConfigs[path];
        var e := env[i];
        WritesSnoc(routeConfigs, order, env, i);

        var tokenUrl := e.fetchTokenURL(config.url);
        if tokenUrl.None? {
          continue;
        }
        var playerToken := e.fetchPlayerToken(tokenUrl.value);
        if playerToken.None? {
          continue;
        }
        var streamUrl := FetchStreamUrl(e, config, playerToken.value);
        if streamUrl.None? {
          continue;
        }
        var entry := CachedStreamUrl(streamUrl.value, e.now);
        assert AttemptWrite(e, config) == Some(entry);
        OverrideThenUpdate(old(cachedUrls), Writes(routeConfigs, order[..i], env[..i]), path, entry);
        cachedUrls := cachedUrls[path := entry];
      }
      assert order[..|order|] == order && env[..|env|] == env;
    }
  }
}

=== FILE: types.dfy ===
/** The records shared by the stream server (internal/server/types.go). */
module Types {

  datatype Option<+T> = None | Some(value: T)

  /** The fixed description of one route: which DRM scheme and packaging profile to ask for,
      the endpoint that builds stream links, and the live page the player token comes from. */
  datatype RouteConfig = RouteConfig(
    drmType: string,
    profileName: string,
    streamBuilderURL: string,
    url: string)

  /** The JSON body posted to the stream-link builder. */
  datatype StreamLinkRequest = StreamLinkRequest(
    profileName: string,
    drmType: string,
    referrerUrl: string)

  /** A cached stream URL and the clock reading (in nanoseconds) at which it was stored. */
  datatype CachedStreamUrl = CachedStreamUrl(streamURL: string, timestamp: int)

  /** The entry stored for key `k`, if any. */
  function Get<K, V>(m: map<K, V>, k: K): (r: Option<V>)
    ensures r.Some? <==> k in m
    ensures r.Some? ==> r.value == m[k]
  {
    if k in m then Some(m[k]) else None
  }
}
